=== FILE: README.md ===
# Proof-of-history entry chain, modelled in Dafny

This project models the `entry` module of an early Solana ledger (`src/entry.rs`).
An entry records a count of sequential hashes (`num_hashes`), the identifier
(`id`) that `next_hash` derives from the previous entry's identifier with
that count, and the events stamped into the entry, in order. The module has four parts:

- `next_hash` derives an identifier. It runs an idle loop of `hash` over the
  range `1..num_hashes`. It then serialises the events into a buffer: a tag
  byte per event (Transaction 0, Signature 1, Timestamp 2), then that event's
  signature bytes. When the buffer is not empty, it mixes the buffer in with
  `extend_and_hash`.
- `Entry::verify` checks every event's own signature check and recomputes
  the identifier.
- `new_tick`, `next_tick`, `create_entry` and `create_entry_mut` build entries.

Files:

- `primitives.dfy` (`Primitives`): bytes, `u64`, 32-byte identifiers and the
  all-zero identifier `Zero`. A `Hasher` value carries `hash` and
  `extend_and_hash` as total function values. Injectivity predicates are
  used only as lemma hypotheses.
- `event.dfy` (`Events`): the three event variants. Each has signature bytes
  and an opaque `body`.
- `hash_data.dfy` (`HashData`): `add_event_data` and the event buffer, with
  its length and byte layout.
- `entry.dfy` (`Entries`): `Entry`, `NextHash`, `Verify` and the
  constructors. It also has loop methods that follow the loops of `src/entry.rs`, and
  a producer that calls `create_entry_mut` once per batch.
- `entry_properties.dfy` (`EntryProperties`): what verification accepts
  and what tampering it detects.

Every result holds for every choice of `hash`, `extend_and_hash` and event
signature check. These are parameters: the hash module and the event module
are not part of this model. Where a result needs a property of the digest,
the lemma states it as a `requires`:

- `HashInjective`: `hash` maps distinct identifiers to distinct identifiers.
- `ExtendInjectiveInId`: mixing one buffer into different identifiers gives
  different results.
- `hash(Zero) != Zero`.

No lemma assumes that `extend_and_hash` tells different buffers apart, as a
digest cannot do that for all buffers. The tamper lemmas prove instead that
the tampered entry has a different buffer, and that a tampered entry that
still verifies forces a collision of `extend_and_hash` on those two specific
buffers.

`create_entry` derives its identifier with a count of 0 but stores
`cur_hashes` (plus one when events are present). The model keeps this
behaviour. `CreateEntryVerifiesIff` gives the exact verification condition
for any counter. Without events, the condition is that the idle hashes the
stored count implies lead back to `start`. With events, the condition is
that mixing the buffer into `start` and into `start` after `cur_hashes`
idle hashes gives the same result. When mixing is injective in the
identifier, `CreateEntryVerifiesIffInjective` reduces both cases to "the
idle hashes implied by the stored count lead back to `start`". Every case
holds for `cur_hashes == 0`. `CreateEntryRejectsPositiveCount` shows that a
positive count with events fails verification when mixing is injective in
the identifier and `hash` does not cycle back to `start`.

A producer that hashes its start forward `cur_hashes` times before calling
`create_entry` is covered by `AdvancedStartEntryVerifiesIff` and
`AdvancedStartTickOffByOne`. With events, the entry verifies against the
identifier the producer started from exactly when its events do. Without
events and for `cur_hashes >= 1`, the stored count is one more than the
idle hashes that `next_hash` replays. The entry then verifies only if its
last idle hash was a fixed point of `hash`. For `cur_hashes == 0` nothing
is hashed or replayed, and the entry verifies.

The doc comments at `src/entry.rs:10-11` and `src/entry.rs:38` say that
`id` is the previous identifier hashed `num_hashes` times. The code at
`src/entry.rs:68` loops over `1..num_hashes`, so it hashes `num_hashes - 1`
times, and not at all for counts 0 and 1. The model follows the code:
`NextHash`, `NextTick` and `NewTickVerifiesIff` state the `num_hashes - 1`
count.

The module comment at `src/entry.rs:3` says that entries cannot be
reordered. `ChainSwapForcesCollision` shows that two entries verify as a
chain in both orders only through a collision of `next_hash` in its start
argument. `ChainSwapNeedsStationaryIds` shows that, when both digests are
injective in the identifier, this happens only if both identifiers equal
the start. Ticks with counts 0 and 1 are exactly such entries:
`TickSwapUndetected` shows that two of them verify in either order.

## Model

| member | source | states |
|---|---|---|
| `HashData.Tag` | src/entry.rs:47-59 | the tag byte is 0, 1 or 2 exactly when the event is a Transaction, a Signature or a Timestamp, so the tag identifies the variant |
| `HashData.AddEventData` | src/entry.rs:46-61 | appends exactly one tag byte and then the signature bytes, leaving the existing buffer unchanged |
| `HashData.Serialize` | src/entry.rs:73-76 | the buffer built by the append loop is as long as the sum over events of 1 plus the signature length, and it is empty exactly when there are no events |
| `HashData.DataLengthAppend` | src/entry.rs:73-76 | the buffer size of a concatenation of event lists is the sum of their sizes |
| `HashData.SerializeAppend` | src/entry.rs:73-76 | serialising a concatenation of event lists concatenates their buffers, so order is kept |
| `HashData.SerializeLayout` | src/entry.rs:46-76 | event i's tag sits at the total size of the events before it, and its signature bytes follow directly |
| `HashData.SerializeDistinguishes` | src/entry.rs:46-76 | lists that agree before position i get different buffers when the events at i differ in tag, or in signatures of equal length |
| `HashData.SerializePair` | src/entry.rs:73-76 | two events serialise to the first's tag and signature followed by the second's |
| `Entries.NextHash` | src/entry.rs:66-83 | with no events the result is hash applied n-1 times for n >= 1 and zero times for n = 0, so counts 0 and 1 return start; with events it is extend_and_hash of that idle result and the buffer |
| `Entries.Verify` | src/entry.rs:40-43 | an entry with an event that fails its own check never verifies; an entry without events verifies iff its id is start after the idle hashes over 1..num_hashes |
| `Entries.NewTick` | src/entry.rs:30-36 | the entry stores the given count and id and has no events |
| `Entries.CreateEntry` | src/entry.rs:86-94 | keeps the events; stores cur_hashes, plus one when events are present; the id involves no idle hashing: start itself, or start with the buffer mixed in |
| `Entries.NextTick` | src/entry.rs:105-111 | the entry stores num_hashes, has no events, and its id is start after num_hashes-1 idle hashes (none for counts 0 and 1) |
| `Entries.ComputeNextHash` | src/entry.rs:66-83 | the counting loop over 1..num_hashes and the buffer loop compute NextHash; with no events it is hash iterated over the range length |
| `Entries.VerifyEntry` | src/entry.rs:40-43 | the short-circuit event check followed by recomputing the id returns true exactly when the entry verifies |
| `Entries.CreateEntryMut` | src/entry.rs:97-102 | returns the create_entry result for the old state; the new start is that entry's id and the counter is reset to 0 |
| `Entries.ProduceEntries` | src/entry.rs:97-102 | passing the producer state through create_entry_mut batch by batch emits one entry per batch, each starting from the previous id |
| `EntryProperties.NextHashZeroAndOneAgree` | src/entry.rs:66-70 | counts 0 and 1 give the same identifier for any events |
| `EntryProperties.NextHashDependsOnlyOnBuffer` | src/entry.rs:72-82 | events affect the identifier only through their serialised buffer |
| `EntryProperties.IterateInjective` | src/entry.rs:67-70 | if hash is injective, the idle loop sends distinct starts to distinct results |
| `EntryProperties.NewTickVerifiesIff` | src/entry.rs:30-43 | new_tick(n, id) verifies against start iff id is the idle result; for n <= 1 that means iff id == start |
| `EntryProperties.NextTickVerifies` | src/entry.rs:105-111 | next_tick(start, n) verifies against start, for every count n |
| `EntryProperties.NextTickRejectsOtherStart` | src/entry.rs:105-111 | next_tick(start, n) does not verify against any other start: always for n <= 1, and for larger n when hash is injective |
| `EntryProperties.EntryVerifyScenario` | src/entry.rs:124-131 | over the zero identifier, new_tick(0) and next_tick(1) verify against zero and not against hash(zero), and next_tick(zero, 1) stores count 1 |
| `EntryProperties.CreateEntryAtZeroVerifiesIff` | src/entry.rs:86-94 | create_entry(start, 0, evs) verifies against start iff every event passes its own check |
| `EntryProperties.CreateEntryVerifiesIff` | src/entry.rs:86-94 | for any counter, create_entry verifies iff the events check out and, without events, the implied idle hashes lead back to start, or, with events, mixing the buffer into start equals mixing it into start after cur_hashes idle hashes |
| `EntryProperties.CreateEntryVerifiesIffInjective` | src/entry.rs:86-94 | when mixing is injective in the id, create_entry verifies iff the events check out and the idle hashes implied by the stored count lead back to start |
| `EntryProperties.CreateEntryRejectsPositiveCount` | src/entry.rs:86-88 | with events and a positive counter, create_entry fails its own verification if mixing is injective in the id and hash does not cycle back to start |
| `EntryProperties.AdvancedStartEntryVerifiesIff` | src/entry.rs:86-102 | a producer that hashed its start forward cur times emits, with events, an entry that verifies against the original start iff its events check out |
| `EntryProperties.AdvancedStartTickOffByOne` | src/entry.rs:86-102 | the same producer without events emits an entry that verifies against the original start iff the cur idle hashes equal the cur-1 that next_hash replays; for cur >= 1, iff its last idle hash is a fixed point of hash |
| `EntryProperties.ProducedChainVerifiesIff` | src/entry.rs:97-102 | a chain made by repeated create_entry_mut from a zero counter verifies link by link iff every event of every batch checks out |
| `EntryProperties.NextHashInjectiveInStart` | src/entry.rs:66-83 | when hash and mixing are injective in the identifier, next_hash with one count and one event list never leads two starts to the same result |
| `EntryProperties.ChainSwapForcesCollision` | src/entry.rs:1-4 | if two entries verify as a chain from p in both orders, each id is derived alike from p and from the other entry's id, a collision of next_hash in its start |
| `EntryProperties.ChainSwapNeedsStationaryIds` | src/entry.rs:1-4 | when hash and mixing are injective in the identifier, two entries verify as a chain in both orders only if both ids equal the start |
| `EntryProperties.TickSwapUndetected` | src/entry.rs:1-4 | two distinct ticks with counts 0 and 1 over p verify as a chain from p in either order, so the no-reordering promise fails for them |
| `EntryProperties.ReorderDetected` | src/entry.rs:73-79 | exchanging two events with different data and signatures of equal length changes the buffer, so a verifying entry that still verifies after the exchange forces an extend_and_hash collision on the two buffers |
| `EntryProperties.VariantSubstitutionDetected` | src/entry.rs:46-61 | replacing an event with one of another variant changes the buffer, so a verifying entry that still verifies after the change forces an extend_and_hash collision on the two buffers |
| `EntryProperties.ReorderAttackScenario` | src/entry.rs:134-165 | create_entry from two valid events with distinct data verifies; the entry with the two events exchanged has a different buffer and verifies only if extend_and_hash of start collides on the two buffers |
| `EntryProperties.SwapUndetectedForUnequalSignatureLengths` | src/entry.rs:46-61 | two transactions with signatures of lengths 1 and 3 serialise to the same buffer in either order, so the equal-length hypothesis is needed |

## Left out

- The digest functions `hash` and `extend_and_hash` are not modelled. They come from the hash module, which is not part of this model, and are passed in as parameters.
- `Event::verify` (signature checking) and the event constructors are not modelled. They are cryptographic and live in the event and transaction modules, which are not part of this model. Event verification is a parameter `eventOk`, and everything a variant carries besides its signature is an opaque `body`.
- The width of a signature is not fixed. The model allows signature byte strings of any length. In the Rust code, a signature has a fixed width, but the signature module is not part of this model. `ReorderDetected` and `ReorderAttackScenario` therefore require the exchanged events to have signatures of equal length, which fixed-width signatures always satisfy. `SwapUndetectedForUnequalSignatureLengths` shows that the hypothesis cannot be dropped.
- The parallel `par_iter().all(...)` event check is modelled as a sequential loop that stops at the first failure. For pure per-event checks the result is the same.
- `CreateEntry`, `CreateEntryMut`: the model requires `cur_hashes < 2^64 - 1` when events are present. An overflowing `cur_hashes + 1` panics in a debug build and wraps in a release build; neither behaviour is modelled.
- `ProduceEntries` and `ProducedChainVerifiesIff` only cover a producer that does no hashing between calls, so the counter is 0 at every call. The hashing loop of a producer that advances the start with `hash` between entries is outside `src/entry.rs`. A single such step is covered by `AdvancedStartEntryVerifiesIff` and `AdvancedStartTickOffByOne`.
- The serde `Serialize`/`Deserialize` derives are not modelled. They are wire encoding and do not change the chain rule.
- Determinism and idempotence of `next_hash` and `verify` hold because Dafny functions are pure. No separate lemma states them.
- The tests' `KeyPair` generation and `Utc::now()` are not modelled. `ReorderAttackScenario` takes the two events as arbitrary valid events with distinct data.
- The promise at `src/entry.rs:3` that entries cannot be reordered is not proved in general, because it does not hold for entries whose identifier equals their start. `TickSwapUndetected` gives two such ticks. `ChainSwapNeedsStationaryIds` proves the promise for every other pair of adjacent entries, assuming injective digests.

=== FILE: entry.dfy ===
/**
  Entries of the proof-of-history chain: the derivation of an entry's
  identifier from its predecessor's (`next_hash`), its verification, and the
  constructors a producer uses to extend the chain.
 */
module Entries {
  import opened Primitives
  import opened Events
  import opened HashData

  /**
    `num_hashes` counts the hashes claimed since the previous entry, `id` is
    the identifier they led to, and `events` were stamped into the entry in
    this order.
   */
  datatype Entry = Entry(numHashes: U64, id: Hash, events: seq<Event>)

  /** `f` applied `k` times to `x`. */
  function Iterate(f: Hash -> Hash, x: Hash, k: nat): Hash
    decreases k
  {
    if k == 0 then x else f(Iterate(f, x, k - 1))
  }

  /** Number of values in the Rust range `lo..hi` (empty when `lo >= hi`). */
  function RangeLen(lo: int, hi: int): nat
  {
    if lo < hi then hi - lo else 0
  }

  /**
    `next_hash`: run the idle loop over `1..numHashes`, then, when the event
    buffer is not empty, mix it into the result. So `hash` is applied
    `numHashes - 1` times, and not at all for counts 0 and 1; without events
    that is the result, and with events one final `extend_and_hash` of the
    buffer follows.
   */
  function NextHash(hr: Hasher, start: Hash, numHashes: U64, events: seq<Event>): (r: Hash)
    ensures events == [] ==> r == Iterate(hr.hash, start, if numHashes == 0 then 0 else numHashes - 1)
    ensures events == [] && numHashes <= 1 ==> r == start
    ensures events != [] ==>
      r == hr.extendAndHash(Iterate(hr.hash, start, if numHashes == 0 then 0 else numHashes - 1), Serialize(events))
  {
    var id := Iterate(hr.hash, start, RangeLen(1, numHashes));
    var data := Serialize(events);
    if data != [] then hr.extendAndHash(id, data) else id
  }

  /** Every event passes its own signature check. */
  predicate EventsVerify(eventOk: Event -> bool, events: seq<Event>)
  {
    forall i :: 0 <= i < |events| ==> eventOk(events[i])
  }

  /**
    `Entry::verify`: every event checks out and the stored identifier is the
    one `next_hash` derives from `start` with the stored count and events.
   */
  predicate Verify(hr: Hasher, eventOk: Event -> bool, entry: Entry, start: Hash)
    ensures (exists i :: 0 <= i < |entry.events| && !eventOk(entry.events[i])) ==>
      !Verify(hr, eventOk, entry, start)
    ensures entry.events == [] ==>
      (Verify(hr, eventOk, entry, start) <==> entry.id == Iterate(hr.hash, start, RangeLen(1, entry.numHashes)))
  {
    && EventsVerify(eventOk, entry.events)
    && entry.id == NextHash(hr, start, entry.numHashes, entry.events)
  }

  /** `Entry::new_tick`: an entry without events, from a known count and identifier. */
  function NewTick(numHashes: U64, id: Hash): (e: Entry)
    ensures e.numHashes == numHashes && e.id == id
    ensures e.events == []
  {
    Entry(numHashes, id, [])
  }

  /** The count `create_entry` stores: one more than `curHashes` when events are present. */
  function CreatedCount(curHashes: U64, events: seq<Event>): U64
    requires events == [] || curHashes < U64_MAX
  {
    curHashes + if events == [] then 0 else 1
  }

  /**
    `create_entry`: the stored count is `curHashes`, plus one when events are
    present, while the identifier is derived with a count of zero, so no idle
    hashing goes into it: it is `start` itself, or `start` with the event
    buffer mixed in.
   */
  function CreateEntry(hr: Hasher, start: Hash, curHashes: U64, events: seq<Event>): (e: Entry)
    requires events == [] || curHashes < U64_MAX
    ensures e.events == events
    ensures e.numHashes == if events == [] then curHashes else curHashes + 1
    ensures e.id == if events == [] then start else hr.extendAndHash(start, Serialize(events))
  {
    Entry(CreatedCount(curHashes, events), NextHash(hr, start, 0, events), events)
  }

  /**
    `next_tick`: an entry without events that stores `numHashes` and whose
    identifier is `start` after `numHashes - 1` idle hashes (none for counts
    0 and 1).
   */
  function NextTick(hr: Hasher, start: Hash, numHashes: U64): (e: Entry)
    ensures e.numHashes == numHashes && e.events == []
    ensures e.id == Iterate(hr.hash, start, if numHashes == 0 then 0 else numHashes - 1)
  {
    Entry(numHashes, NextHash(hr, start, numHashes, []), [])
  }

  /**
    `next_hash` as `src/entry.rs` computes it: a counting loop over `1..numHashes`,
    then a loop appending each event's data to a buffer.
   */
  method ComputeNextHash(hr: Hasher, start: Hash, numHashes: U64, events: seq<Event>)
    returns (id: Hash)
    ensures id == NextHash(hr, start, numHashes, events)
    ensures events == [] ==> id == Iterate(hr.hash, start, RangeLen(1, numHashes))
  {
    id := start;
    var i := 1;
    while i < numHashes
      invariant 1 <= i <= if numHashes <= 1 then 1 else numHashes
      invariant id == Iterate(hr.hash, start, i - 1)
      decreases numHashes - i
    {
      id := hr.hash(id);
      i := i + 1;
    }

    var data: seq<Byte> := [];
    var k := 0;
    while k < |events|
      invariant k <= |events|
      invariant data == Serialize(events[..k])
    {
      assert events[..k + 1][..k] == events[..k];
      data := AddEventData(data, events[k]);
      k := k + 1;
    }
    assert events[..k] == events;

    if data != [] {
      id := hr.extendAndHash(id, data);
    }
  }

  /**
    `Entry::verify` as `src/entry.rs` computes it: check each event (sequentially
    here, stopping at the first failure), then recompute the identifier.
   */
  method VerifyEntry(hr: Hasher, eventOk: Event -> bool, entry: Entry, start: Hash)
    returns (ok: bool)
    ensures ok <==> Verify(hr, eventOk, entry, start)
  {
    var i := 0;
    while i < |entry.events|
      invariant i <= |entry.events|
      invariant forall j :: 0 <= j < i ==> eventOk(entry.events[j])
    {
      if !eventOk(entry.events[i]) {
        return false;
      }
      i := i + 1;
    }
    var id := ComputeNextHash(hr, start, entry.numHashes, entry.events);
    ok := entry.id == id;
  }

  /**
    `create_entry_mut`: build the entry from the producer's current state, then
    move the state on: the new start is the entry's identifier and the hash
    counter is reset.
   */
  method CreateEntryMut(hr: Hasher, startHash: Hash, curHashes: U64, events: seq<Event>)
    returns (entry: Entry, newStart: Hash, newCur: U64)
    requires events == [] || curHashes < U64_MAX
    ensures entry == CreateEntry(hr, startHash, curHashes, events)
    ensures newStart == entry.id
    ensures newCur == 0
  {
    entry := CreateEntry(hr, startHash, curHashes, events);
    newStart := entry.id;
    newCur := 0;
  }

  /** The identifier the next entry of a producer starts from. */
  function Tip(start: Hash, entries: seq<Entry>): Hash
  {
    if entries == [] then start else entries[|entries| - 1].id
  }

  /**
    The entries a producer emits by calling `create_entry_mut` once per batch,
    starting from `start` with a zero counter and not hashing in between.
   */
  function ProduceChain(hr: Hasher, start: Hash, batches: seq<seq<Event>>): seq<Entry>
    decreases |batches|
  {
    if batches == [] then []
    else
      var prev := ProduceChain(hr, start, batches[..|batches| - 1]);
      prev + [CreateEntry(hr, Tip(start, prev), 0, batches[|batches| - 1])]
  }

  /** Each entry verifies against the identifier of the entry before it. */
  predicate ChainVerifies(hr: Hasher, eventOk: Event -> bool, start: Hash, entries: seq<Entry>)
  {
    forall i :: 0 <= i < |entries| ==> Verify(hr, eventOk, entries[i], Tip(start, entries[..i]))
  }

  /** The producer loop: thread the state through `CreateEntryMut`, batch by batch. */
  method ProduceEntries(hr: Hasher, start: Hash, batches: seq<seq<Event>>)
    returns (entries: seq<Entry>, last: Hash)
    ensures |entries| == |batches|
    ensures entries == ProduceChain(hr, start, batches)
    ensures last == Tip(start, entries)
  {
    entries := [];
    var startHash, curHashes := start, 0;
    var k := 0;
    while k < |batches|
      invariant k <= |batches|
      invariant |entries| == k
      invariant entries == ProduceChain(hr, start, batches[..k])
      invariant startHash == Tip(start, entries)
      invariant curHashes == 0
    {
      assert batches[..k + 1][..k] == batches[..k];
      var entry;
      entry, startHash, curHashes := CreateEntryMut(hr, startHash, curHashes, batches[k]);
      entries := entries + [entry];
      k := k + 1;
    }
    assert batches[..k] == batches;
    last := startHash;
  }
}

=== FILE: entry_properties.dfy ===
/**
  What the entry chain guarantees: how many idle hashes `next_hash` performs,
  where event data enters the identifier, which entries each constructor
  produces verify, and which tamperings verification detects.
 */
module EntryProperties {
  import opened Primitives
  import opened Events
  import opened HashData
  import opened Entries

  /** The list `events` with the events at positions `i` and `j` exchanged. */
  function Swap(events: seq<Event>, i: nat, j: nat): seq<Event>
    requires i < |events| && j < |events|
  {
    events[i := events[j]][j := events[i]]
  }

  // ---------------------------------------------------------------------------
  // next_hash

  /** Counts 0 and 1 derive the same identifier, whatever the events. */
  lemma NextHashZeroAndOneAgree(hr: Hasher, start: Hash, events: seq<Event>)
    ensures NextHash(hr, start, 0, events) == NextHash(hr, start, 1, events)
  {
  }

  /**
    Events enter the identifier only through their serialisation: event lists
    with the same buffer derive the same identifier.
   */
  lemma NextHashDependsOnlyOnBuffer(hr: Hasher, start: Hash, n: U64, a: seq<Event>, b: seq<Event>)
    requires Serialize(a) == Serialize(b)
    ensures NextHash(hr, start, n, a) == NextHash(hr, start, n, b)
  {
  }

  /** With an injective `hash`, the idle loop never maps two starts to one result. */
  lemma {:induction false} IterateInjective(f: Hash -> Hash, x: Hash, y: Hash, k: nat)
    requires forall a: Hash, b: Hash :: f(a) == f(b) ==> a == b
    requires Iterate(f, x, k) == Iterate(f, y, k)
    ensures x == y
    decreases k
  {
    if k > 0 {
      IterateInjective(f, x, y, k - 1);
    }
  }

  // ---------------------------------------------------------------------------
  // Entry::verify

  /** An event-free entry verifies exactly when its identifier is the idle result. */
  lemma NewTickVerifiesIff(hr: Hasher, eventOk: Event -> bool, n: U64, id: Hash, start: Hash)
    ensures Verify(hr, eventOk, NewTick(n, id), start) <==> id == Iterate(hr.hash, start, RangeLen(1, n))
    ensures n <= 1 ==> (Verify(hr, eventOk, NewTick(n, id), start) <==> id == start)
  {
  }

  /** `next_tick(start, n)` verifies against `start`, for every count and every event check. */
  lemma NextTickVerifies(hr: Hasher, eventOk: Event -> bool, start: Hash, n: U64)
    ensures Verify(hr, eventOk, NextTick(hr, start, n), start)
  {
  }

  /**
    `next_tick(start, n)` verifies against no other start: for `n <= 1`
    unconditionally, and for larger `n` when `hash` is injective.
   */
  lemma NextTickRejectsOtherStart(hr: Hasher, eventOk: Event -> bool, start: Hash, other: Hash, n: U64)
    requires other != start
    requires n <= 1 || HashInjective(hr)
    ensures !Verify(hr, eventOk, NextTick(hr, start, n), other)
  {
    if Verify(hr, eventOk, NextTick(hr, start, n), other) {
      if n > 1 {
        IterateInjective(hr.hash, start, other, n - 1);
      }
    }
  }

  /**
    The base and inductive cases over the all-zero start: ticks verify against
    `zero` and not against `one = hash(zero)`, provided `hash` moves `zero`.
   */
  lemma EntryVerifyScenario(hr: Hasher, eventOk: Event -> bool)
    requires hr.hash(Zero) != Zero
    ensures Verify(hr, eventOk, NewTick(0, Zero), Zero)
    ensures !Verify(hr, eventOk, NewTick(0, Zero), hr.hash(Zero))
    ensures Verify(hr, eventOk, NextTick(hr, Zero, 1), Zero)
    ensures !Verify(hr, eventOk, NextTick(hr, Zero, 1), hr.hash(Zero))
    ensures NextTick(hr, Zero, 1).numHashes == 1
  {
    NextTickRejectsOtherStart(hr, eventOk, Zero, hr.hash(Zero), 1);
  }

  // ---------------------------------------------------------------------------
  // create_entry and create_entry_mut

  /** With a zero counter, `create_entry` verifies against its start iff its events do. */
  lemma CreateEntryAtZeroVerifiesIff(hr: Hasher, eventOk: Event -> bool, start: Hash, events: seq<Event>)
    ensures Verify(hr, eventOk, CreateEntry(hr, start, 0, events), start) <==> EventsVerify(eventOk, events)
  {
  }

  /**
    For any counter, `create_entry` verifies against its start exactly when
    its events do and, without events, the idle hashes its stored count
    implies lead from `start` back to `start`, or, with events, mixing the
    buffer into `start` gives the same identifier as mixing it into `start`
    after `cur` idle hashes. `CreateEntryVerifiesIffInjective` gives the
    "back to `start`" form for both cases when mixing distinguishes
    identifiers.
   */
  lemma CreateEntryVerifiesIff(hr: Hasher, eventOk: Event -> bool, start: Hash, cur: U64, events: seq<Event>)
    requires events == [] || cur < U64_MAX
    ensures Verify(hr, eventOk, CreateEntry(hr, start, cur, events), start) <==>
      && EventsVerify(eventOk, events)
      && if events == [] then
           Iterate(hr.hash, start, RangeLen(1, cur)) == start
         else
           hr.extendAndHash(start, Serialize(events))
           == hr.extendAndHash(Iterate(hr.hash, start, cur), Serialize(events))
  {
  }

  /**
    When mixing distinguishes identifiers, `create_entry` verifies against
    its start exactly when its events do and the idle hashes its stored count
    implies lead from `start` back to `start`.
   */
  lemma CreateEntryVerifiesIffInjective(
    hr: Hasher, eventOk: Event -> bool, start: Hash, cur: U64, events: seq<Event>)
    requires events == [] || cur < U64_MAX
    requires ExtendInjectiveInId(hr)
    ensures Verify(hr, eventOk, CreateEntry(hr, start, cur, events), start) <==>
      && EventsVerify(eventOk, events)
      && Iterate(hr.hash, start, RangeLen(1, CreatedCount(cur, events))) == start
  {
    CreateEntryVerifiesIff(hr, eventOk, start, cur, events);
  }

  /**
    A positive counter makes an event-carrying `create_entry` fail its own
    verification, as long as mixing distinguishes identifiers and the idle
    hashes do not cycle back to `start`.
   */
  lemma CreateEntryRejectsPositiveCount(hr: Hasher, eventOk: Event -> bool, start: Hash, cur: U64, events: seq<Event>)
    requires events != [] && 0 < cur < U64_MAX
    requires ExtendInjectiveInId(hr)
    requires Iterate(hr.hash, start, cur) != start
    ensures !Verify(hr, eventOk, CreateEntry(hr, start, cur, events), start)
  {
    CreateEntryVerifiesIff(hr, eventOk, start, cur, events);
  }

  /**
    A producer that hashes its start forward `cur` times and then calls
    `create_entry` with that counter: with events, the entry verifies against
    the identifier it started from exactly when its events do, because the
    one extra hash the stored count claims is the mixing hash.
   */
  lemma AdvancedStartEntryVerifiesIff(
    hr: Hasher, eventOk: Event -> bool, prev: Hash, cur: U64, events: seq<Event>)
    requires events != [] && cur < U64_MAX
    ensures Verify(hr, eventOk, CreateEntry(hr, Iterate(hr.hash, prev, cur), cur, events), prev)
        <==> EventsVerify(eventOk, events)
  {
  }

  /**
    The same producer without events stores a count one higher than the idle
    hashes `next_hash` replays, so the entry verifies against the identifier
    it started from only if its last idle hash was a fixed point of `hash`.
   */
  lemma AdvancedStartTickOffByOne(hr: Hasher, eventOk: Event -> bool, prev: Hash, cur: U64)
    ensures Verify(hr, eventOk, CreateEntry(hr, Iterate(hr.hash, prev, cur), cur, []), prev)
        <==> Iterate(hr.hash, prev, cur) == Iterate(hr.hash, prev, RangeLen(1, cur))
    ensures cur >= 1 ==>
      (Verify(hr, eventOk, CreateEntry(hr, Iterate(hr.hash, prev, cur), cur, []), prev) <==>
       hr.hash(Iterate(hr.hash, prev, cur - 1)) == Iterate(hr.hash, prev, cur - 1))
  {
  }

  /** Extending a chain by one entry adds exactly that entry's check against the old tip. */
  lemma ChainVerifiesSnoc(hr: Hasher, eventOk: Event -> bool, start: Hash, prev: seq<Entry>, e: Entry)
    ensures ChainVerifies(hr, eventOk, start, prev + [e]) <==>
      ChainVerifies(hr, eventOk, start, prev) && Verify(hr, eventOk, e, Tip(start, prev))
  {
    var chain := prev + [e];
    assert chain[..|prev|] == prev;
    forall i | 0 <= i < |prev|
      ensures chain[i] == prev[i] && chain[..i] == prev[..i]
    {
    }
  }

  /** Every event of every batch passes its own check. */
  predicate BatchesVerify(eventOk: Event -> bool, batches: seq<seq<Event>>)
  {
    forall k :: 0 <= k < |batches| ==> EventsVerify(eventOk, batches[k])
  }

  /**
    A producer that calls `create_entry_mut` batch after batch from a zero
    counter emits a chain in which every entry verifies against its
    predecessor's identifier exactly when every event does.
   */
  lemma {:induction false} ProducedChainVerifiesIff(
    hr: Hasher, eventOk: Event -> bool, start: Hash, batches: seq<seq<Event>>)
    ensures ChainVerifies(hr, eventOk, start, ProduceChain(hr, start, batches)) <==>
      BatchesVerify(eventOk, batches)
    decreases |batches|
  {
    if batches != [] {
      var n := |batches| - 1;
      var init := batches[..n];
      var prev := ProduceChain(hr, start, init);
      var tip := Tip(start, prev);
      var e := CreateEntry(hr, tip, 0, batches[n]);
      var chain := ProduceChain(hr, start, batches);
      assert chain == prev + [e];
      assert ChainVerifies(hr, eventOk, start, prev) <==> BatchesVerify(eventOk, init) by {
        ProducedChainVerifiesIff(hr, eventOk, start, init);
      }
      assert ChainVerifies(hr, eventOk, start, chain) <==>
        ChainVerifies(hr, eventOk, start, prev) && Verify(hr, eventOk, e, tip) by {
        ChainVerifiesSnoc(hr, eventOk, start, prev, e);
      }
      assert Verify(hr, eventOk, e, tip) <==> EventsVerify(eventOk, batches[n]) by {
        CreateEntryAtZeroVerifiesIff(hr, eventOk, tip, batches[n]);
      }
      assert BatchesVerify(eventOk, batches) <==>
        BatchesVerify(eventOk, init) && EventsVerify(eventOk, batches[n]) by {
        BatchesVerifyLast(eventOk, batches);
      }
    }
  }

  /** A batch list verifies iff its prefix does and its last batch does. */
  lemma BatchesVerifyLast(eventOk: Event -> bool, batches: seq<seq<Event>>)
    requires batches != []
    ensures BatchesVerify(eventOk, batches) <==>
      BatchesVerify(eventOk, batches[..|batches| - 1]) && EventsVerify(eventOk, batches[|batches| - 1])
  {
    var init := batches[..|batches| - 1];
    forall k | 0 <= k < |init|
      ensures init[k] == batches[k]
    {
    }
  }

  // ---------------------------------------------------------------------------
  // Chain order

  /**
    With both digests injective in the identifier, `next_hash` tells starts
    apart: one count and one event list never lead two starts to one result.
   */
  lemma NextHashInjectiveInStart(hr: Hasher, a: Hash, b: Hash, n: U64, events: seq<Event>)
    requires HashInjective(hr) && ExtendInjectiveInId(hr)
    requires NextHash(hr, a, n, events) == NextHash(hr, b, n, events)
    ensures a == b
  {
    var k := RangeLen(1, n);
    assert Iterate(hr.hash, a, k) == Iterate(hr.hash, b, k);
    IterateInjective(hr.hash, a, b, k);
  }

  /**
    If two entries verify as a chain from `p` in both orders, then each
    entry's identifier is derived alike from `p` and from the other entry's
    identifier: the exchange goes unnoticed only through a collision of
    `next_hash` in its start argument.
   */
  lemma ChainSwapForcesCollision(hr: Hasher, eventOk: Event -> bool, p: Hash, e1: Entry, e2: Entry)
    requires ChainVerifies(hr, eventOk, p, [e1, e2])
    requires ChainVerifies(hr, eventOk, p, [e2, e1])
    ensures e1.id == NextHash(hr, p, e1.numHashes, e1.events) == NextHash(hr, e2.id, e1.numHashes, e1.events)
    ensures e2.id == NextHash(hr, p, e2.numHashes, e2.events) == NextHash(hr, e1.id, e2.numHashes, e2.events)
  {
    var c12, c21 := [e1, e2], [e2, e1];
    assert c12[..0] == [] && c12[..1] == [e1];
    assert c21[..0] == [] && c21[..1] == [e2];
    assert Verify(hr, eventOk, c12[0], Tip(p, c12[..0]));
    assert Verify(hr, eventOk, c12[1], Tip(p, c12[..1]));
    assert Verify(hr, eventOk, c21[0], Tip(p, c21[..0]));
    assert Verify(hr, eventOk, c21[1], Tip(p, c21[..1]));
  }

  /**
    With both digests injective in the identifier, two entries verify as a
    chain from `p` in both orders only if neither moves the chain on: both
    identifiers are `p` itself.
   */
  lemma ChainSwapNeedsStationaryIds(hr: Hasher, eventOk: Event -> bool, p: Hash, e1: Entry, e2: Entry)
    requires HashInjective(hr) && ExtendInjectiveInId(hr)
    requires ChainVerifies(hr, eventOk, p, [e1, e2])
    requires ChainVerifies(hr, eventOk, p, [e2, e1])
    ensures e1.id == p && e2.id == p
  {
    ChainSwapForcesCollision(hr, eventOk, p, e1, e2);
    NextHashInjectiveInStart(hr, p, e2.id, e1.numHashes, e1.events);
    NextHashInjectiveInStart(hr, p, e1.id, e2.numHashes, e2.events);
  }

  /**
    Ticks with counts 0 and 1 keep their predecessor's identifier, so two
    such distinct ticks verify as a chain in either order.
   */
  lemma TickSwapUndetected(hr: Hasher, eventOk: Event -> bool, p: Hash)
    ensures NewTick(0, p) != NewTick(1, p)
    ensures ChainVerifies(hr, eventOk, p, [NewTick(0, p), NewTick(1, p)])
    ensures ChainVerifies(hr, eventOk, p, [NewTick(1, p), NewTick(0, p)])
  {
    var c01, c10 := [NewTick(0, p), NewTick(1, p)], [NewTick(1, p), NewTick(0, p)];
    assert c01[..0] == [] && c01[..1] == [NewTick(0, p)];
    assert c10[..0] == [] && c10[..1] == [NewTick(1, p)];
  }

  // ---------------------------------------------------------------------------
  // Tamper detection

  /**
    Exchanging two events whose tags or signatures differ, and whose
    signatures have the same length, changes the buffer. So if a verifying
    entry still verifies against the same start after the exchange, then
    `extend_and_hash` maps the two different buffers to the same identifier
    from the same idle result: verification misses a reordering only through
    such a collision.
   */
  lemma ReorderDetected(hr: Hasher, eventOk: Event -> bool, entry: Entry, start: Hash, i: nat, j: nat)
    requires i < j < |entry.events|
    requires |entry.events[i].sig| == |entry.events[j].sig|
    requires Tag(entry.events[i]) != Tag(entry.events[j]) || entry.events[i].sig != entry.events[j].sig
    requires Verify(hr, eventOk, entry, start)
    ensures Serialize(entry.events) != Serialize(Swap(entry.events, i, j))
    ensures Verify(hr, eventOk, entry.(events := Swap(entry.events, i, j)), start) ==>
      var idle := Iterate(hr.hash, start, RangeLen(1, entry.numHashes));
      hr.extendAndHash(idle, Serialize(entry.events))
      == hr.extendAndHash(idle, Serialize(Swap(entry.events, i, j)))
  {
    var evs := entry.events;
    var swapped := Swap(evs, i, j);
    assert swapped[..i] == evs[..i];
    assert swapped[i] == evs[j];
    SerializeDistinguishes(evs, swapped, i);
  }

  /**
    Replacing an event by one of another variant changes the buffer, whatever
    the signatures. So if the changed entry still verifies against the same
    start, `extend_and_hash` maps the two different buffers to the same
    identifier from the same idle result.
   */
  lemma VariantSubstitutionDetected(
    hr: Hasher, eventOk: Event -> bool, entry: Entry, start: Hash, i: nat, replacement: Event)
    requires i < |entry.events|
    requires Tag(replacement) != Tag(entry.events[i])
    requires Verify(hr, eventOk, entry, start)
    ensures Serialize(entry.events) != Serialize(entry.events[i := replacement])
    ensures Verify(hr, eventOk, entry.(events := entry.events[i := replacement]), start) ==>
      var idle := Iterate(hr.hash, start, RangeLen(1, entry.numHashes));
      hr.extendAndHash(idle, Serialize(entry.events))
      == hr.extendAndHash(idle, Serialize(entry.events[i := replacement]))
  {
    var evs := entry.events;
    var changed := evs[i := replacement];
    assert changed[..i] == evs[..i];
    SerializeDistinguishes(evs, changed, i);
  }

  /**
    The reorder attacks: an entry built by `create_entry` from two valid
    events with distinct data verifies against its start; the same entry with
    the two events exchanged has a different buffer, and verifies only if
    `extend_and_hash` of `start` collides on the two buffers.
   */
  lemma ReorderAttackScenario(hr: Hasher, eventOk: Event -> bool, start: Hash, ev0: Event, ev1: Event)
    requires eventOk(ev0) && eventOk(ev1)
    requires |ev0.sig| == |ev1.sig|
    requires Tag(ev0) != Tag(ev1) || ev0.sig != ev1.sig
    ensures Verify(hr, eventOk, CreateEntry(hr, start, 0, [ev0, ev1]), start)
    ensures Serialize([ev0, ev1]) != Serialize([ev1, ev0])
    ensures Verify(hr, eventOk, CreateEntry(hr, start, 0, [ev0, ev1]).(events := [ev1, ev0]), start) ==>
      hr.extendAndHash(start, Serialize([ev0, ev1])) == hr.extendAndHash(start, Serialize([ev1, ev0]))
  {
    var e := CreateEntry(hr, start, 0, [ev0, ev1]);
    CreateEntryAtZeroVerifiesIff(hr, eventOk, start, [ev0, ev1]);
    assert Swap(e.events, 0, 1) == [ev1, ev0];
    ReorderDetected(hr, eventOk, e, start, 0, 1);
  }

  /**
    Why the equal-length condition is needed: two transactions whose
    signatures have different lengths can be exchanged without changing the
    buffer, so the swap goes unnoticed by any `extend_and_hash`.
   */
  lemma SwapUndetectedForUnequalSignatureLengths(hr: Hasher, start: Hash, n: U64)
    ensures var a := Transaction([0], []);
            var b := Transaction([0, 0, 0], []);
            && a != b
            && Serialize([a, b]) == Serialize([b, a])
            && NextHash(hr, start, n, [a, b]) == NextHash(hr, start, n, [b, a])
  {
    var a := Transaction([0], []);
    var b := Transaction([0, 0, 0], []);
    var ab, ba := [a, b], [b, a];
    SerializePair(a, b);
    SerializePair(b, a);
    assert [Tag(a)] + a.sig + [Tag(b)] + b.sig == [0, 0, 0, 0, 0, 0];
    assert [Tag(b)] + b.sig + [Tag(a)] + a.sig == [0, 0, 0, 0, 0, 0];
    NextHashDependsOnlyOnBuffer(hr, start, n, ab, ba);
  }
}

=== FILE: event.dfy ===
/**
  The events an entry carries. Their definition lives outside the entry
  module; the chain only ever looks at which variant an event is and at its
  signature bytes. Everything else a variant carries (the transaction
  payload, the signer, the timestamp) is kept as an opaque `body`, and an
  event's own signature check is a parameter of the operations that need it.
 */
module Events {
  import opened Primitives

  datatype Event =
    | Transaction(sig: seq<Byte>, body: seq<Byte>)
    | Signature(sig: seq<Byte>, body: seq<Byte>)
    | Timestamp(sig: seq<Byte>, body: seq<Byte>)
}

=== FILE: hash_data.dfy ===
/**
  The byte buffer `next_hash` mixes into an identifier: for each event in
  order, a one-byte variant tag followed by the event's signature bytes.
 */
module HashData {
  import opened Primitives
  import opened Events

  /** The variant discriminant written before each event's signature. */
  function Tag(e: Event): (t: Byte)
    ensures t == 0 <==> e.Transaction?
    ensures t == 1 <==> e.Signature?
    ensures t == 2 <==> e.Timestamp?
  {
    match e
    case Transaction(_, _) => 0
    case Signature(_, _) => 1
    case Timestamp(_, _) => 2
  }

  /** `add_event_data`: push the event's tag, then extend with its signature. */
  function AddEventData(buf: seq<Byte>, e: Event): (r: seq<Byte>)
    ensures |r| == |buf| + 1 + |e.sig|
    ensures r[..|buf|] == buf
    ensures r[|buf|] == Tag(e)
    ensures r[|buf| + 1..] == e.sig
  {
    buf + [Tag(e)] + e.sig
  }

  /** Reference size of the buffer: one tag byte plus the signature, per event. */
  function DataLength(events: seq<Event>): nat
  {
    if events == [] then 0 else 1 + |events[0].sig| + DataLength(events[1..])
  }

  /** The reference size of a concatenation is the sum of the sizes. */
  lemma {:induction false} DataLengthAppend(a: seq<Event>, b: seq<Event>)
    ensures DataLength(a + b) == DataLength(a) + DataLength(b)
    decreases |a|
  {
    if a != [] {
      assert (a + b)[1..] == a[1..] + b;
      DataLengthAppend(a[1..], b);
    } else {
      assert a + b == b;
    }
  }

  /**
    The buffer the event loop of `next_hash` builds: each event's tag byte and
    signature, in order (`ComputeNextHash` shows that feeding the events to
    `AddEventData` one by one yields it). It is exactly as long as the
    per-event sizes add up to, so it is empty exactly when there are no
    events.
   */
  function Serialize(events: seq<Event>): (r: seq<Byte>)
    ensures |r| == DataLength(events)
    ensures r == [] <==> events == []
  {
    if events == [] then []
    else
      var init, last := events[..|events| - 1], events[|events| - 1];
      assert events == init + [last];
      DataLengthAppend(init, [last]);
      Serialize(init) + [Tag(last)] + last.sig
  }

  /** Serialising a concatenation concatenates the serialisations. */
  lemma {:induction false} SerializeAppend(a: seq<Event>, b: seq<Event>)
    ensures Serialize(a + b) == Serialize(a) + Serialize(b)
    decreases |b|
  {
    if b == [] {
      assert a + b == a;
    } else {
      var b', last := b[..|b| - 1], b[|b| - 1];
      assert Serialize(a + b) == Serialize(a + b') + [Tag(last)] + last.sig by {
        assert (a + b)[..|a + b| - 1] == a + b';
        assert (a + b)[|a + b| - 1] == last;
      }
      assert Serialize(a + b') == Serialize(a) + Serialize(b') by {
        SerializeAppend(a, b');
      }
      assert Serialize(b) == Serialize(b') + [Tag(last)] + last.sig;
      AppendAssoc(Serialize(a), Serialize(b'), [Tag(last)], last.sig);
    }
  }

  /** Regrouping a concatenation of four byte strings. */
  lemma AppendAssoc(w: seq<Byte>, x: seq<Byte>, y: seq<Byte>, z: seq<Byte>)
    ensures w + x + y + z == w + (x + y + z)
  {
  }

  /** One event serialises to its tag followed by its signature. */
  lemma SerializeSingle(e: Event)
    ensures Serialize([e]) == [Tag(e)] + e.sig
  {
    assert [e][..0] == [];
  }

  /** `buf` holds the tag byte `t` at `off`, directly followed by the bytes `sig`. */
  predicate FieldAt(buf: seq<Byte>, off: nat, t: Byte, sig: seq<Byte>)
  {
    && off + 1 + |sig| <= |buf|
    && buf[off] == t
    && buf[off + 1..off + 1 + |sig|] == sig
  }

  /**
    Byte layout: event `i` occupies the bytes starting at the total size of
    the events before it, first its tag and then its signature.
   */
  lemma SerializeLayout(events: seq<Event>, i: nat)
    requires i < |events|
    ensures FieldAt(Serialize(events), DataLength(events[..i]), Tag(events[i]), events[i].sig)
  {
    var pre, e, post := events[..i], events[i], events[i + 1..];
    assert Serialize(events) == Serialize(pre + [e]) + Serialize(post) by {
      SplitAt(events, i);
      SerializeAppend(pre + [e], post);
    }
    assert Serialize(pre + [e]) == Serialize(pre) + ([Tag(e)] + e.sig) by {
      SerializeAppend(pre, [e]);
      SerializeSingle(e);
    }
    FieldAtConcat(Serialize(pre), Tag(e), e.sig, Serialize(post));
  }

  /** A list is the events before position `i`, the event at `i`, and the events after it. */
  lemma SplitAt(events: seq<Event>, i: nat)
    requires i < |events|
    ensures events == events[..i] + [events[i]] + events[i + 1..]
  {
  }

  /** A tag and a byte string placed after a prefix sit at the prefix's length. */
  lemma FieldAtConcat(p: seq<Byte>, t: Byte, sig: seq<Byte>, q: seq<Byte>)
    ensures FieldAt(p + ([t] + sig) + q, |p|, t, sig)
  {
    var buf := p + ([t] + sig) + q;
    assert buf[|p| + 1..|p| + 1 + |sig|] == sig;
  }

  /**
    Two event lists that agree before position `i` serialise differently when
    the events at `i` differ in tag, or differ in signature bytes while having
    signatures of the same length.
   */
  lemma SerializeDistinguishes(a: seq<Event>, b: seq<Event>, i: nat)
    requires i < |a| && i < |b|
    requires a[..i] == b[..i]
    requires Tag(a[i]) != Tag(b[i]) || (|a[i].sig| == |b[i].sig| && a[i].sig != b[i].sig)
    ensures Serialize(a) != Serialize(b)
  {
    SerializeLayout(a, i);
    SerializeLayout(b, i);
    FieldsDistinguish(Serialize(a), Serialize(b), DataLength(a[..i]), Tag(a[i]), Tag(b[i]), a[i].sig, b[i].sig);
  }

  /**
    Two buffers holding a tag and a byte string at the same offset differ
    when the tags differ, or the strings have equal length but different
    bytes.
   */
  lemma FieldsDistinguish(x: seq<Byte>, y: seq<Byte>, off: nat, tx: Byte, ty: Byte, sx: seq<Byte>, sy: seq<Byte>)
    requires FieldAt(x, off, tx, sx) && FieldAt(y, off, ty, sy)
    requires tx != ty || (|sx| == |sy| && sx != sy)
    ensures x != y
  {
  }

  /** Two events serialise to the first's tag and signature, then the second's. */
  lemma SerializePair(x: Event, y: Event)
    ensures Serialize([x, y]) == [Tag(x)] + x.sig + [Tag(y)] + y.sig
  {
    var xy := [x, y];
    assert xy[..1] == [x] && xy[1] == y;
    SerializeSingle(x);
  }
}

=== FILE: primitives.dfy ===
/**
  Machine types and the hashing capabilities the entry chain consumes.

  The digest functions themselves (`hash` and `extend_and_hash` of the hash
  module) are not part of this model: a `Hasher` carries them as total
  function values, so every definition and lemma below holds for every
  choice of digest. Where a property needs the digest to be injective, it
  is stated as a hypothesis with `HashInjective` or `ExtendInjectiveInId` at
  the end of this module; other needs (such as `hash(Zero) != Zero`) are
  stated inline as hypotheses of the lemmas that use them.
 */
module Primitives {

  /** One byte of a hashing buffer. */
  newtype Byte = x: int | 0 <= x < 256

  /** Rust `u64`: the width of `Entry::num_hashes` and of the producer's hash counter. */
  const U64_MAX: int := 0xFFFF_FFFF_FFFF_FFFF
  type U64 = x: int | 0 <= x <= U64_MAX

  /** Width in bytes of an identifier (a SHA-256 digest). */
  const HASH_LEN: nat := 32

  /** An identifier: a fixed-width digest, compared only for equality. */
  type Hash = s: seq<Byte> | |s| == HASH_LEN witness seq(HASH_LEN, _ => 0)

  /** `Hash::default()`: the all-zero digest. */
  const Zero: Hash := seq(HASH_LEN, _ => 0)

  /**
    The two digest functions the chain is built from:
    `hash` is the one-way step of the idle loop, and `extendAndHash`
    mixes a byte buffer into an identifier.
   */
  datatype Hasher = Hasher(
    hash: Hash -> Hash,
    extendAndHash: (Hash, seq<Byte>) -> Hash
  )

  /** Distinct identifiers hash to distinct identifiers. */
  ghost predicate HashInjective(hr: Hasher) {
    forall a: Hash, b: Hash :: hr.hash(a) == hr.hash(b) ==> a == b
  }

  /** Mixing the same buffer into different identifiers gives different results. */
  ghost predicate ExtendInjectiveInId(hr: Hasher) {
    forall a: Hash, b: Hash, d: seq<Byte> ::
      hr.extendAndHash(a, d) == hr.extendAndHash(b, d) ==> a == b
  }
}
